=== FILE: README.md ===
# mupen64plus-input-lua: a verified model of the plugin core

The Mupen64Plus input plugin `src/plugin.c` forwards the emulator's controller
calls to a Lua script. This project models everything the plugin decides for
itself:

- **PIF command framing** (`PifCommand`). The transmit length is the low six bits of
  byte 0 and the receive length is the low six bits of byte 1. The transmit
  payload starts at offset 2 and the receive region follows it. `ReadController`
  writes the reply back into the receive region in place.
- **The Lua evaluation stack** (`LuaStack`, `LuaConvert`). The stack is a sequence of
  values. The script's entry table is an optional registry entry. `lua_pcall`
  carries the contract from section 4 of the Lua reference manual: it pops the
  function and `nargs` arguments, then pushes `nresults` values on success or
  one error object on failure. What the script does is a parameter (`CallOutcome`).
  `lua_tostring` and `lua_tointeger` are modelled for the values the plugin
  converts.
- **The hook wrappers** (`Hooks`). These are the exact push/pop sequences of
  `ControllerCommand`, `ReadController`, `GetKeys`, `RomOpen` and `RomClosed`.
  They include the `Control == 0` / `Command != NULL` guards, the single
  controller slot `controller[0]`, `InitiateControllers` and the `GetKeys`
  copy-out.
- **Sessions and the lifecycle** (`Session`, `Lifecycle`). `l_PluginInit` drives a
  two-state machine through `PluginStartup`/`PluginShutdown`. A session is any
  number of host calls in any order. `Session.Run` and `Lifecycle.Drive` prove
  that the stack never drifts once the two stack leaks (see Findings) are
  corrected. `Session.RunAsWritten` proves that, with the code as written, the
  stack grows by one value per failed `ControllerCommand`.

An entry point that gets past its guard can fail in a way that never returns to
the host. The model writes that outcome as `Aborted`. It happens in two cases:

- `lua_getfield` runs outside a protected call on an entry that cannot be indexed
  (before `RomOpen`, after `RomClosed`, or when the script's result was nil, a
  number, a function or a boolean). The error reaches Lua's default panic
  handler, which aborts the process.
- The call uses a Lua state that was never created or was already closed. A NULL
  state crashes the host; a closed state is a use after free, which is undefined
  behaviour rather than a certain crash, and the model writes both as `Aborted`. The
  one exception is `RomClosed` when the last script that ran returned nil: then
  `lua_input_ref` holds `LUA_REFNIL`, `luaL_unref` ignores it without touching
  the state, and the call returns (`Lifecycle.Handle`). That global outlives the
  Lua state.

Behaviour of the code worth noting:

- Outside a ROM session, the per-call entry points that pass their guard abort
  the host. They are not no-ops (`Hooks.NoSessionAborts`, `Session.RunWithoutSessionAborts`).
- A failed `GetKeys` call still converts the top of the stack, which is the error
  message. So it stores, and copies out, `lua_tointeger` of the message. That is
  0 for any non-numeric message (`Hooks.GetKeysErrorClearsButtons`). The
  previous button word is not kept.
- A failed `ReadController` call copies the first `rx_len` bytes of the error
  message into the receive region (`Hooks.ReadControllerErrorCopiesMessage`).
- `memcpy` always copies exactly `rx_len` bytes, so nothing can be written past
  the receive region. A reply shorter than `rx_len` would be an over-read, so
  the model requires the reply to cover the region.
- The command hooks receive `(tx_len, rx_len, tx bytes, rx bytes)`, with no slot
  number. `GetKeys` receives no arguments.
- Only controller 0 exists. `InitiateControllers` calls no hook: it sets
  `Present = 1` and `RawData = 1` directly.
- `RomClosed` calls no hook: it only releases the reference.
- The lifecycle error codes are kept as the names `M64ERR_SUCCESS`,
  `M64ERR_NOT_INIT` and `M64ERR_ALREADY_INIT`. `m64p_types.h` is not part of this
  model, so their numeric values are not.

## Model

| member | source | states |
|---|---|---|
| PifCommand.LengthOf | src/plugin.c:142-143 | a header length is the byte's value modulo 64, so it is below 64 whatever bits 6 and 7 hold |
| PifCommand.DecodeHeader | src/plugin.c:190-191 | tx_len and rx_len are bytes 0 and 1 modulo 64, each in [0, 63] |
| PifCommand.RegionsTileFrame | src/plugin.c:145-146 | the tx region starts at 2; the rx region starts where tx ends; they are disjoint; together they cover exactly [2, 2+tx_len+rx_len) |
| PifCommand.TxData | src/plugin.c:193 | the transmit payload view has exactly tx_len bytes |
| PifCommand.RxData | src/plugin.c:194 | the receive region view has exactly rx_len bytes |
| PifCommand.FrameSplits | src/plugin.c:193-194 | the framed prefix of a buffer is header ++ tx payload ++ rx region |
| PifCommand.WriteRx | src/plugin.c:210 | the write-back keeps the buffer length; offset i in the rx region gets reply byte i-(2+tx_len); every other byte is unchanged |
| PifCommand.CopyReply | src/plugin.c:210 | a byte-by-byte copy of rx_len reply bytes gives the same buffer as the write-back |
| PifCommand.WriteRxPieces | src/plugin.c:210 | the write-back leaves the bytes before and after the rx region as they were and puts the reply's first rx_len bytes between them |
| PifCommand.WriteRxKeepsFrame | src/plugin.c:209-210 | after the write-back the header decodes the same, the tx payload is unchanged, the rx region holds the reply's first rx_len bytes, and the bytes past the frame are unchanged |
| PifCommand.WriteRxOwnData | src/plugin.c:210 | writing back the rx region's own contents changes nothing |
| PifCommand.WriteRxLastWins | src/plugin.c:210 | of two write-backs only the second is visible |
| LuaStack.Push | src/plugin.c:151-154 | pushing a value puts it on top of the unchanged stack, one deeper, and touches nothing else |
| LuaStack.Pop | src/plugin.c:161 | lua_pop(L, n) removes exactly the top n values and keeps the rest of the stack, the reference and the trace |
| LuaStack.Index | src/plugin.c:149 | indexing yields a value exactly for tables and strings: a table's field, or nil when the table lacks it or the value is a string; any other value raises |
| LuaStack.PushEntry | src/plugin.c:148 | pushing the registry entry adds one value on top of the unchanged stack: the referenced script table, or nil when nothing is referenced |
| LuaStack.GetField | src/plugin.c:149 | looking a hook up succeeds, pushing the field, exactly when the entry is a table or a string; otherwise the host aborts |
| LuaStack.Adjust | src/plugin.c:204 | a result list adjusted to n values has n entries: the results first, then nils |
| LuaStack.PCall | src/plugin.c:156 | pcall keeps everything below the function; it pushes nresults adjusted results on success or the one error object on failure; it records the call and its arguments |
| LuaStack.PCallOneResultTop | src/plugin.c:204-209 | a one-result call leaves the stack nargs shallower, with the first result (or nil) or the error object on top |
| LuaConvert.DecimalRoundTrip | src/plugin.c:209 | the decimal text lua_tostring gives an integer parses back to that integer |
| LuaConvert.ToLString | src/plugin.c:209 | lua_tostring gives a string exactly for strings and integers: strings as they are, integers as decimal text that reads back as the integer |
| LuaConvert.ToInteger | src/plugin.c:274 | lua_tointeger gives integers as they are, numeric strings by their value, and 0 for everything else |
| LuaConvert.StringThenInteger | src/plugin.c:274 | an integer converted to a string and back with the two conversions is unchanged |
| Base.ToU32 | src/plugin.c:274-278 | the button word is the C int's value modulo 2^32, and is the value itself when that is already in range |
| Hooks.InitiateControllers | src/plugin.c:107-115 | the slot is zeroed except that it stores the host's CONTROL pointer; the host structure gets Present = 1 and RawData = 1, and its pak type is unchanged |
| Hooks.PushAll | src/plugin.c:151-154 | pushing the arguments one by one appends them in order to the stack and keeps the reference and the trace |
| Hooks.CommandArgs | src/plugin.c:151-154 | both command hooks receive exactly four arguments |
| Hooks.CommandArgsFromBuffer | src/plugin.c:151-154 | the four arguments are byte 0 mod 64 and byte 1 mod 64 as integers, then the bytes [2, 2+tx_len) and [2+tx_len, 2+tx_len+rx_len) of the buffer as strings |
| Hooks.CallHook | src/plugin.c:148-156 | after the push-entry, getfield, args, pcall sequence, the old stack and the entry table lie under nresults results (success) or one error object (failure); it aborts exactly when the entry cannot be indexed |
| Hooks.ControllerCommand | src/plugin.c:137-162 | with a failing guard, nothing changes; otherwise the stack is unchanged on success and has the entry table left on top after an error; the hook gets (tx_len, rx_len, tx, rx) |
| Hooks.ControllerCommandLeaksOnError | src/plugin.c:156-161 | a failed command leaves the stack one value deeper, with the entry table on top |
| Hooks.ControllerCommandBalanced | src/plugin.c:156-161 | popping the error message too leaves the stack unchanged on both paths |
| Hooks.ReadController | src/plugin.c:185-213 | with a failing guard, neither the buffer nor the stack changes; otherwise the stack is unchanged on both paths, only the rx region changes, and a reply string of exactly rx_len bytes is copied exactly |
| Hooks.ReadControllerErrorCopiesMessage | src/plugin.c:204-210 | after a failed call the rx region holds the start of the error message |
| Hooks.GetKeys | src/plugin.c:261-280 | with Control != 0, *Keys, the slot and the stack are untouched; otherwise the stack is unchanged on both paths and *Keys equals the stored buttons, which are tointeger(top) modulo 2^32 |
| Hooks.GetKeysErrorClearsButtons | src/plugin.c:269-279 | a failed call with a non-numeric message sets the buttons and *Keys to 0 |
| Hooks.Ref | src/plugin.c:237 | luaL_ref pops the script's result and refers to it; for nil it refers to nothing |
| Hooks.RomOpen | src/plugin.c:222-240 | the status is 1 exactly when the script loads and runs; then the stack is unchanged and the entry is the script's result; on failure the old reference is kept and the stack is one deeper |
| Hooks.RomOpenLeaksOnFailure | src/plugin.c:226-235 | a script that fails to load, or raises while it runs, leaves its error message on the stack |
| Hooks.RomOpenBalanced | src/plugin.c:226-235 | popping the message on failure leaves the stack unchanged on every path, with the same status and entry as RomOpen |
| Hooks.RomClosed | src/plugin.c:248-251 | releasing the reference keeps the stack; no hook can be looked up afterwards |
| Hooks.NoSessionAborts | src/plugin.c:148-149 | with no script table referenced, each entry point that passes its guard aborts the host |
| Session.Perform | src/plugin.c:137-280 | one per-call entry point, with the corrected command, keeps the stack and the entry; with a failing guard nothing changes; past its guard it aborts exactly when the entry is not an indexable table or string (no reference, or a script result that is a number, function or nil) |
| Session.PerformAsWritten | src/plugin.c:156-161 | as Perform, with the same abort condition, except that a failed command leaves the entry table on the stack |
| Session.Run | src/plugin.c:137-280 | any sequence of per-call entry points, with the corrected command, ends with the stack it started with |
| Session.RunAsWritten | src/plugin.c:156-161 | with the code as written, the original stack stays at the bottom and the depth grows by the number of failed commands |
| Session.FailedCommandsAccumulate | src/plugin.c:156-161 | with an indexable entry table, a run of n failing commands, as written, does not abort and leaves the stack n values deeper |
| Session.RunWithoutSessionAborts | src/plugin.c:196-197 | with no script table referenced, a run aborts as soon as a call passes its guard |
| Lifecycle.LoadedIsClean | src/plugin.c:16-26 | the plugin as loaded (all statics zero) is stopped and clean, and its first Startup gives a fresh Lua state with nothing referenced |
| Lifecycle.Startup | src/plugin.c:46-61 | when already initialised it returns ALREADY_INIT and changes nothing; otherwise it returns SUCCESS, sets the flag and creates a fresh Lua state |
| Lifecycle.Shutdown | src/plugin.c:63-72 | when not initialised it returns NOT_INIT and changes nothing; otherwise it returns SUCCESS, clears the flag and drops the Lua state |
| Lifecycle.StartupThenShutdown | src/plugin.c:48-71 | Startup followed by Shutdown returns a stopped plugin to exactly its previous state |
| Lifecycle.ShutdownThenStartup | src/plugin.c:55-70 | a restart leaves an empty stack and no referenced script table |
| Lifecycle.MisuseIsHarmless | src/plugin.c:48-66 | from any plugin, a second Startup in a row reports ALREADY_INIT and a second Shutdown in a row reports NOT_INIT, and neither changes anything |
| Lifecycle.Handle | src/plugin.c:46-280 | with the corrected RomOpen and ControllerCommand: Startup and Shutdown act as their own rows say; every other event keeps the init flag and, when it returns, the stack; RomOpen aborts exactly when there is no live Lua state, and records whether the script's result was nil (LUA_REFNIL); RomClosed is a no-op when the reference is LUA_REFNIL and otherwise aborts exactly when there is no live Lua state; a per-call event past its guard aborts when there is no live state and, with a live state, exactly when the entry is not an indexable table or string |
| Lifecycle.Drive | src/plugin.c:46-280 | from a clean plugin, any event sequence that does not abort leaves the plugin clean: the flag matches the Lua state and the stack is empty |

## Findings

| source | as written | input that shows it | evidently intended | confidence | as-written member | corrected member |
|---|---|---|---|---|---|---|
| src/plugin.c:156-161 | `lua_pop(L, 1)` after `lua_pcall(L, 4, 0, 0)` whatever the call returned | controller 0, a non-NULL buffer, and a `ControllerCommand` hook that raises (or is missing, so that calling nil raises): the entry table is left on the stack each time | pop the error message and the entry table on failure (2), the entry table alone on success (1) | not executed; high | Hooks.ControllerCommandLeaksOnError | Hooks.ControllerCommandBalanced |
| src/plugin.c:226-235 | both failure paths of `RomOpen` return 0 right after logging `lua_tostring(L, -1)` | a script file that does not exist or does not compile: the load error message stays on the stack | pop the message before returning 0 | not executed; medium | Hooks.RomOpenLeaksOnFailure | Hooks.RomOpenBalanced |

`Session.Perform`, `Session.Run`, `Lifecycle.Handle` and `Lifecycle.Drive` use the
corrected definitions. `Session.RunAsWritten` shows the first leak accumulating
over a session.

## Left out

- The Lua runtime itself is not modelled: `luaL_newstate`, `luaL_openlibs`, `lua_close`, running the script, and the registry internals of `luaL_ref`/`luaL_unref`. The compiler is a `LoadOutcome` parameter and a called function is a `CallOutcome` parameter. The registry slot is an `Option` entry.
- Metatables are not modelled: no `__index`, and no `__call` on tables. `LuaStack.Index` gives nil for every field of a string, whatever the name. In Lua a string indexes the string library, which has fields such as `len` and `sub`, but none named after a hook, so the plugin's three lookups are unaffected.
- The script's table is modelled as the immutable snapshot taken when `RomOpen` stores the reference. In Lua it is a mutable object that `lua_getfield` reads afresh on every call. A hook that adds, removes or replaces fields of that table (for instance one that installs `ReadController` on the fly) is not modelled: the model still sees the old fields, both in the lookup and in the recorded trace. The stack accounting does not depend on this.
- The Lua stack has unlimited capacity in the model. The real limit (`LUA_MINSTACK` without `lua_checkstack`) is not modelled, so the leaked values never overflow the stack here.
- `RomOpen`'s hard-coded script path and the file I/O behind `luaL_loadfile` are not modelled; the loader is a parameter.
- Registry entries left behind when `RomOpen` succeeds twice without `RomClosed` are not modelled; they are memory, not stack.
- `DebugMessage` (formatting into a fixed buffer), the `fprintf`/`printf` error logging and `print_hex_memory` are not modelled; they are output only.
- The debug callback and context that `PluginStartup` stores are not modelled; only `DebugMessage` uses them.
- `PluginGetVersion` is not modelled: it only writes constants through non-NULL pointers.
- `SDL_KeyDown` and `SDL_KeyUp` are not modelled: their bodies are empty.
- Multi-controller slots, pak-type constants, configuration lookup and clamping of oversized replies do not exist in this code, so they are not modelled.
- `plugin.h` is not part of this model. `SController` holds only the fields the code uses (the CONTROL pointer and the button word), and `HostControl` only `Present`, `RawData` and `Plugin`.
- The host's pointers (`ControlInfo.Controls`, `Keys`) are assumed non-NULL, as the host guarantees.
- LuaConvert.ToInteger: a string counts as numeric only when it is an optional minus sign followed by decimal digits. Lua also accepts surrounding whitespace, hexadecimal and integral float forms; those are not modelled. Neither is the conversion failure of decimal strings outside the 64-bit `lua_Integer` range.
- Lua booleans and userdata are not modelled as values. A boolean hook result converts like nil, and a boolean entry aborts like a number, so the model's behaviour covers them.
- LuaConvert.ToLString: Lua floats are not modelled, so no value converts from a float. `lua_tostring` also rewrites a number on the stack into a string in place; that is not modelled because the plugin pops the value straight away.
- Hooks.ReadController: requires a reply of at least `rx_len` bytes, or `rx_len == 0` when there is no string. A reply one byte short, where `memcpy` would also read the terminating NUL, is excluded as well.

=== FILE: base.dfy ===
/** Small shared vocabulary: optional values, bytes, the 32-bit button word, and
    the outcome of a host entry point (it either returns or the host process dies). */
module Base {

  datatype Option<+T> = None | Some(value: T) {

    /** The wrapped value, or `default` when there is none. */
    function GetOr(default: T): T {
      match this
      case Some(v) => v
      case None => default
    }
  }

  /** One byte of host memory (the plugin works on `unsigned char`). */
  type byte = bv8

  const TWO_TO_THE_32: int := 0x1_0000_0000

  /** The 32-bit `BUTTONS` word shared with the host, read as an unsigned number. */
  type u32 = x: int | 0 <= x < TWO_TO_THE_32

  /** The bit pattern a C `int` holding `n` leaves in a 32-bit word: the value
      taken modulo 2^32 (a narrowing conversion followed by a `memcpy`). */
  function ToU32(n: int): (r: u32)
    ensures 0 <= n < TWO_TO_THE_32 ==> r == n
    ensures (n - r) % TWO_TO_THE_32 == 0
  {
    n % TWO_TO_THE_32
  }

  /** What a host entry point does to the process: it returns a new state, or
      it never returns (an unprotected Lua error reaches the default panic
      handler, which aborts; or a NULL Lua state is dereferenced). */
  datatype Step<+T> = Done(value: T) | Aborted
}

=== FILE: hooks.dfy ===
/** The plugin's entry points that talk to Lua, each as the push/pop sequence
    it performs around `lua_pcall`, together with the controller slot and the
    host's CONTROL structure that `InitiateControllers` and `GetKeys` fill in.
    Where the code leaves residue on the stack, the function named after the
    entry point models it as written and a `...Balanced` function models the
    evidently intended behaviour. */
module Hooks {
  import opened Base
  import opened PifCommand
  import opened LuaStack
  import opened LuaConvert

  // ---------------------------------------------------------------- controllers

  /** An address in host memory; the host never passes NULL here. */
  type Address = nat

  /** The fields of the host's CONTROL structure the plugin writes. */
  datatype HostControl = HostControl(present: int, rawData: int, plugin: int)

  /** `CONTROL_INFO`: what the host passes to `InitiateControllers`. */
  datatype ControlInfo = ControlInfo(controls: Address)

  /** The plugin's one controller slot `controller[0]`, as far as the code uses
      it: the pointer to the host's CONTROL structure and the last button word. */
  datatype SController = SController(control: Option<Address>, buttons: u32)

  /** The slot as `memset(controller, 0, sizeof(SController))` leaves it. */
  const ZEROED: SController := SController(None, 0)

  /** `InitiateControllers`: the slot is reset, then remembers the host's
      CONTROL pointer, and the host structure is marked present with raw data;
      its pak type is left as the host had it. */
  function InitiateControllers(info: ControlInfo, host: HostControl): (r: (SController, HostControl))
    ensures r.0.buttons == 0 && r.0.control == Some(info.controls)
    ensures r.1.present == 1 && r.1.rawData == 1 && r.1.plugin == host.plugin
  {
    (ZEROED.(control := Some(info.controls)), host.(present := 1, rawData := 1))
  }

  // ---------------------------------------------------------------- calling a hook

  const CONTROLLER_COMMAND: string := "ControllerCommand"
  const READ_CONTROLLER: string := "ReadController"
  const GET_KEYS: string := "GetKeys"

  /** The value `lua_getfield(L, -1, name)` would push after the entry table,
      or `None` when the entry cannot be indexed. */
  function HookCallee(entry: Option<Value>, name: string): Option<Value> {
    Index(entry.GetOr(Nil), name)
  }

  /** The outcome is one Lua could produce for this hook. */
  predicate HookAdmissible(entry: Option<Value>, name: string, outcome: CallOutcome) {
    HookCallee(entry, name).Some? ==> Admissible(HookCallee(entry, name).value, outcome)
  }

  /** Pushes each argument in order. */
  function PushAll(L: Lua, args: seq<Value>): (r: Lua)
    ensures r.stack == L.stack + args
    ensures r.entry == L.entry && r.trace == L.trace
    decreases |args|
  {
    if |args| == 0 then L else PushAll(Push(L, args[0]), args[1..])
  }

  /** The frame every hook wrapper builds: push the entry table, look the hook
      up in it, push the arguments, and call it asking for `nresults` values.
      On return the entry table is still on the stack under whatever the call
      left; looking the hook up in something that is not a table aborts. */
  function CallHook(L: Lua, name: string, args: seq<Value>, nresults: nat, outcome: CallOutcome): (r: Step<Lua>)
    requires HookAdmissible(L.entry, name, outcome)
    ensures r.Done? <==> HookCallee(L.entry, name).Some?
    ensures r.Done? ==> r.value.Depth() > L.Depth()
    ensures r.Done? ==> r.value.stack[..L.Depth() + 1] == L.stack + [L.entry.GetOr(Nil)]
    ensures r.Done? && outcome.Returned? ==>
      r.value.Depth() == L.Depth() + 1 + nresults &&
      r.value.stack[L.Depth() + 1..] == Adjust(outcome.results, nresults)
    ensures r.Done? && outcome.Raised? ==>
      r.value.Depth() == L.Depth() + 2 && r.value.stack[L.Depth() + 1] == outcome.error
    ensures r.Done? ==> r.value.entry == L.entry
    ensures r.Done? ==> r.value.trace == L.trace + [Invocation(HookCallee(L.entry, name).value, args)]
  {
    var L1 := PushEntry(L);
    match GetField(L1, name)
    case Aborted => Aborted
    case Done(L2) =>
      var L3 := PushAll(L2, args);
      assert L3.stack[L.Depth() + 1] == HookCallee(L.entry, name).value;
      assert L3.stack[L.Depth() + 2..] == args;
      Done(PCall(L3, |args|, nresults, outcome))
  }

  // ---------------------------------------------------------------- command buffers

  /** The only calls the command entry points act on: controller 0 and a
      non-NULL buffer. */
  predicate Serves(control: int, command: Option<seq<byte>>) {
    control == 0 && command.Some?
  }

  /** The arguments both command hooks receive: the two lengths, the request
      payload and a copy of the current receive region. */
  function CommandArgs(buf: seq<byte>): (args: seq<Value>)
    requires Framed(buf)
    ensures |args| == 4
  {
    var h := DecodeHeader(buf);
    [Integer(h.txLen), Integer(h.rxLen), Str(TxData(buf)), Str(RxData(buf))]
  }

  /** The hook arguments read straight off the raw buffer: the two header
      bytes modulo 64, then the bytes that follow the header, split at the
      transmit length. */
  lemma CommandArgsFromBuffer(buf: seq<byte>)
    requires Framed(buf)
    ensures var args, t, r := CommandArgs(buf), buf[0] as int % 64, buf[1] as int % 64;
      && 2 + t + r <= |buf|
      && args[0] == Integer(t) && args[1] == Integer(r)
      && args[2] == Str(buf[2..2 + t]) && args[3] == Str(buf[2 + t..2 + t + r])
  {
  }

  /** What a command entry point demands: a framed buffer and an outcome Lua
      could produce. */
  predicate CommandDefined(entry: Option<Value>, name: string, control: int, command: Option<seq<byte>>, outcome: CallOutcome) {
    Serves(control, command) ==> Framed(command.value) && HookAdmissible(entry, name, outcome)
  }

  /** `ControllerCommand` as written: `pcall(4, 0)` then `lua_pop(L, 1)`. On
      success that pops the entry table; on error it pops the error message
      and the entry table stays behind. */
  function ControllerCommand(control: int, command: Option<seq<byte>>, L: Lua, outcome: CallOutcome): (r: Step<Lua>)
    requires CommandDefined(L.entry, CONTROLLER_COMMAND, control, command, outcome)
    ensures !Serves(control, command) ==> r == Done(L)
    ensures Serves(control, command) ==> (r.Done? <==> HookCallee(L.entry, CONTROLLER_COMMAND).Some?)
    ensures Serves(control, command) && r.Done? ==>
      r.value.entry == L.entry &&
      r.value.trace == L.trace + [Invocation(HookCallee(L.entry, CONTROLLER_COMMAND).value, CommandArgs(command.value))]
    ensures Serves(control, command) && r.Done? && outcome.Returned? ==> r.value.stack == L.stack
    ensures Serves(control, command) && r.Done? && outcome.Raised? ==> r.value.stack == L.stack + [L.entry.GetOr(Nil)]
  {
    if !Serves(control, command) then Done(L)
    else
      match CallHook(L, CONTROLLER_COMMAND, CommandArgs(command.value), 0, outcome)
      case Aborted => Aborted
      case Done(L1) => Done(Pop(L1, 1))
  }

  /** `ControllerCommand` popping the error message as well as the entry table
      when the call fails, so the stack is as it was on both paths. */
  function ControllerCommandBalanced(control: int, command: Option<seq<byte>>, L: Lua, outcome: CallOutcome): (r: Step<Lua>)
    requires CommandDefined(L.entry, CONTROLLER_COMMAND, control, command, outcome)
    ensures !Serves(control, command) ==> r == Done(L)
    ensures Serves(control, command) ==> (r.Done? <==> HookCallee(L.entry, CONTROLLER_COMMAND).Some?)
    ensures Serves(control, command) && r.Done? ==>
      r.value.entry == L.entry &&
      r.value.trace == L.trace + [Invocation(HookCallee(L.entry, CONTROLLER_COMMAND).value, CommandArgs(command.value))]
    ensures r.Done? ==> r.value.stack == L.stack
  {
    if !Serves(control, command) then Done(L)
    else
      match CallHook(L, CONTROLLER_COMMAND, CommandArgs(command.value), 0, outcome)
      case Aborted => Aborted
      case Done(L1) => Done(Pop(L1, if outcome.Raised? then 2 else 1))
  }

  /** A failed `ControllerCommand` call, as written, leaves the stack one value
      deeper, and the value left behind is the script's entry table. */
  lemma ControllerCommandLeaksOnError(control: int, command: Option<seq<byte>>, L: Lua, error: Value)
    requires Serves(control, command) && Framed(command.value)
    requires HookCallee(L.entry, CONTROLLER_COMMAND).Some?
    ensures ControllerCommand(control, command, L, Raised(error)).Done?
    ensures ControllerCommand(control, command, L, Raised(error)).value.Depth() == L.Depth() + 1
    ensures ControllerCommand(control, command, L, Raised(error)).value.stack[L.Depth()] == L.entry.GetOr(Nil)
  {
  }

  /** The bytes `memcpy` copies from: the string `lua_tostring` yields, or
      nothing when it yields NULL. */
  function ReplyBytes(v: Value): seq<byte> {
    ToLString(v).GetOr([])
  }

  /** The reply `lua_tostring` yields covers the receive region: `memcpy` reads
      `n` bytes from it (none at all when there is no string and `n` is 0). */
  predicate ReplyCovers(v: Value, n: nat) {
    |ReplyBytes(v)| >= n && (ToLString(v).None? ==> n == 0)
  }

  predicate ReadDefined(entry: Option<Value>, control: int, command: Option<seq<byte>>, outcome: CallOutcome) {
    CommandDefined(entry, READ_CONTROLLER, control, command, outcome) &&
    (Serves(control, command) ==> ReplyCovers(TopAfter(outcome), DecodeHeader(command.value).rxLen))
  }

  /** `ReadController`: `pcall(4, 1)`, copy `rx_len` bytes of whatever string is
      on top into the receive region (the error message when the call failed),
      then `lua_pop(L, 2)`. The stack ends as it began on both paths, and only
      the receive region of the buffer changes. */
  function ReadController(control: int, command: Option<seq<byte>>, L: Lua, outcome: CallOutcome): (r: Step<(Lua, Option<seq<byte>>)>)
    requires ReadDefined(L.entry, control, command, outcome)
    ensures !Serves(control, command) ==> r == Done((L, command))
    ensures Serves(control, command) ==> (r.Done? <==> HookCallee(L.entry, READ_CONTROLLER).Some?)
    ensures Serves(control, command) && r.Done? ==>
      r.value.0.stack == L.stack && r.value.0.entry == L.entry &&
      r.value.0.trace == L.trace + [Invocation(HookCallee(L.entry, READ_CONTROLLER).value, CommandArgs(command.value))]
    ensures Serves(control, command) && r.Done? ==> r.value.1.Some?
    ensures Serves(control, command) && r.Done? ==>
      var buf, out, h := command.value, r.value.1.value, DecodeHeader(command.value);
      && |out| == |buf|
      && Framed(out) && DecodeHeader(out) == h
      && TxData(out) == TxData(buf)
      && RxData(out) == ReplyBytes(TopAfter(outcome))[..h.rxLen]
      && (forall i | 0 <= i < |buf| && !RxRegion(h).Contains(i) :: out[i] == buf[i])
    ensures Serves(control, command) && r.Done? && outcome.Returned? && TopAfter(outcome).Str? &&
            |TopAfter(outcome).bytes| == DecodeHeader(command.value).rxLen ==>
      RxData(r.value.1.value) == TopAfter(outcome).bytes
  {
    if !Serves(control, command) then Done((L, command))
    else
      var buf := command.value;
      match CallHook(L, READ_CONTROLLER, CommandArgs(buf), 1, outcome)
      case Aborted => Aborted
      case Done(L1) =>
        assert L1.stack[L.Depth() + 1] == TopAfter(outcome) by {
          if outcome.Returned? {
            assert L1.stack[L.Depth() + 1..][0] == Adjust(outcome.results, 1)[0];
          }
        }
        assert L1.stack[..L.Depth()] == L.stack;
        var reply := ReplyBytes(L1.stack[L1.Depth() - 1]);
        WriteRxKeepsFrame(buf, reply);
        Done((Pop(L1, 2), Some(WriteRx(buf, reply))))
  }

  // ---------------------------------------------------------------- buttons

  /** `GetKeys`: for controller 0, `pcall(0, 1)`, convert the value on top with
      `lua_tointeger` into a C `int`, `lua_pop(L, 2)`, store the word in the
      slot and copy it to `*Keys`. A failed call converts the error object
      (normally a message, which gives 0). Other controllers are ignored. */
  function GetKeys(control: int, keys: u32, slot: SController, L: Lua, outcome: CallOutcome): (r: Step<(Lua, SController, u32)>)
    requires control == 0 ==> HookAdmissible(L.entry, GET_KEYS, outcome)
    ensures control != 0 ==> r == Done((L, slot, keys))
    ensures control == 0 ==> (r.Done? <==> HookCallee(L.entry, GET_KEYS).Some?)
    ensures control == 0 && r.Done? ==>
      r.value.0.stack == L.stack && r.value.0.entry == L.entry &&
      r.value.0.trace == L.trace + [Invocation(HookCallee(L.entry, GET_KEYS).value, [])]
    ensures control == 0 && r.Done? ==>
      r.value.1 == slot.(buttons := ToU32(ToInteger(TopAfter(outcome)))) && r.value.2 == r.value.1.buttons
    ensures control == 0 && r.Done? && TopAfter(outcome).Integer? && 0 <= TopAfter(outcome).n < TWO_TO_THE_32 ==>
      r.value.2 == TopAfter(outcome).n
  {
    if control != 0 then Done((L, slot, keys))
    else
      match CallHook(L, GET_KEYS, [], 1, outcome)
      case Aborted => Aborted
      case Done(L1) =>
        assert L1.stack[L.Depth() + 1] == TopAfter(outcome) by {
          if outcome.Returned? {
            assert L1.stack[L.Depth() + 1..][0] == Adjust(outcome.results, 1)[0];
          }
        }
        var word := ToU32(ToInteger(L1.stack[L1.Depth() - 1]));
        var slot' := slot.(buttons := word);
        Done((Pop(L1, 2), slot', slot'.buttons))
  }

  /** A failed `ReadController` call copies the start of the error message
      into the receive region: the code converts whatever is on top. */
  lemma ReadControllerErrorCopiesMessage(command: seq<byte>, L: Lua, message: seq<byte>)
    requires Framed(command) && |message| >= DecodeHeader(command).rxLen
    requires HookCallee(L.entry, READ_CONTROLLER).Some?
    ensures ReadController(0, Some(command), L, Raised(Str(message))).Done?
    ensures ReadController(0, Some(command), L, Raised(Str(message))).value.1.Some?
    ensures RxData(ReadController(0, Some(command), L, Raised(Str(message))).value.1.value)
         == message[..DecodeHeader(command).rxLen]
  {
  }

  /** A failed `GetKeys` call whose error message is not a number stores 0 as
      the button word and copies 0 out: the previous buttons are lost. */
  lemma GetKeysErrorClearsButtons(keys: u32, slot: SController, L: Lua, message: seq<byte>)
    requires HookCallee(L.entry, GET_KEYS).Some?
    requires ParseDecimal(message).None?
    ensures GetKeys(0, keys, slot, L, Raised(Str(message))).Done?
    ensures GetKeys(0, keys, slot, L, Raised(Str(message))).value.1.buttons == 0
    ensures GetKeys(0, keys, slot, L, Raised(Str(message))).value.2 == 0
  {
  }

  // ---------------------------------------------------------------- ROM session

  /** What `luaL_loadfile` did with the script file: compiled it into a chunk
      (a function), or failed and pushed an error message. */
  datatype LoadOutcome = Compiled(chunk: nat) | LoadFailed(message: Value)

  /** `luaL_ref(L, LUA_REGISTRYINDEX)`: pops the top value and keeps a
      reference to it; nil gets `LUA_REFNIL`, under which nothing is stored. */
  function Ref(L: Lua): (r: Lua)
    requires L.Depth() > 0
    ensures r.stack == L.stack[..L.Depth() - 1] && r.trace == L.trace
    ensures L.stack[L.Depth() - 1] != Nil ==> r.entry == Some(L.stack[L.Depth() - 1])
    ensures L.stack[L.Depth() - 1] == Nil ==> r.entry == None
  {
    var top := L.stack[L.Depth() - 1];
    Pop(L, 1).(entry := if top == Nil then None else Some(top))
  }

  /** The entry a successful ROM open refers to: what the script returned. */
  function EntryAfter(run: CallOutcome): Option<Value> {
    if TopAfter(run) == Nil then None else Some(TopAfter(run))
  }

  /** `RomOpen` as written: load the script, run it asking for one result and
      keep a reference to that result. Both failure paths return 0 straight
      after logging, leaving the error message on the stack; the previous
      reference is kept. */
  function RomOpen(L: Lua, load: LoadOutcome, run: CallOutcome): (r: (int, Lua))
    ensures r.0 == 1 <==> load.Compiled? && run.Returned?
    ensures r.0 == 0 || r.0 == 1
    ensures r.0 == 1 ==> r.1.stack == L.stack && r.1.entry == EntryAfter(run)
    ensures r.0 == 0 ==> r.1.Depth() == L.Depth() + 1 && r.1.stack[..L.Depth()] == L.stack && r.1.entry == L.entry
    ensures load.Compiled? ==> r.1.trace == L.trace + [Invocation(Function(load.chunk), [])]
    ensures load.LoadFailed? ==> r.1.trace == L.trace
  {
    match load
    case LoadFailed(message) => (0, Push(L, message))
    case Compiled(chunk) =>
      var L0 := Push(L, Function(chunk));
      assert L0.stack[L0.Depth()..] == [];
      var L1 := PCall(L0, 0, 1, run);
      if run.Raised? then (0, L1)
      else
        assert L1.stack[L.Depth()] == TopAfter(run) by {
          assert L1.stack[L.Depth()..][0] == Adjust(run.results, 1)[0];
        }
        (1, Ref(L1))
  }

  /** `RomOpen` popping the error message before it returns 0, so that a ROM
      that fails to open leaves the stack as it was. */
  function RomOpenBalanced(L: Lua, load: LoadOutcome, run: CallOutcome): (r: (int, Lua))
    ensures r.0 == 1 <==> load.Compiled? && run.Returned?
    ensures r.0 == 0 || r.0 == 1
    ensures r.1.stack == L.stack
    ensures r.0 == 1 ==> r.1.entry == EntryAfter(run)
    ensures r.0 == 0 ==> r.1.entry == L.entry
    ensures load.Compiled? ==> r.1.trace == L.trace + [Invocation(Function(load.chunk), [])]
    ensures load.LoadFailed? ==> r.1.trace == L.trace
  {
    var (status, L1) := RomOpen(L, load, run);
    if status == 0 then (0, Pop(L1, 1)) else (1, L1)
  }

  /** A ROM that fails to open, as written, leaves its error message on the
      stack, whether the script failed to load or failed while running. */
  lemma RomOpenLeaksOnFailure(L: Lua, message: Value, chunk: nat, error: Value)
    ensures RomOpen(L, LoadFailed(message), Returned([])).0 == 0
    ensures RomOpen(L, LoadFailed(message), Returned([])).1.stack == L.stack + [message]
    ensures RomOpen(L, Compiled(chunk), Raised(error)).0 == 0
    ensures RomOpen(L, Compiled(chunk), Raised(error)).1.stack == L.stack + [error]
  {
    var L0 := Push(L, Function(chunk));
    assert PCall(L0, 0, 1, Raised(error)).stack == L.stack + [error];
  }

  /** `RomClosed`: `luaL_unref` releases the reference, after which the entry
      can no longer be indexed. */
  function RomClosed(L: Lua): (r: Lua)
    ensures r.stack == L.stack && r.trace == L.trace
    ensures forall name :: HookCallee(r.entry, name).None?
  {
    L.(entry := None)
  }

  /** Once no script table is referenced (before any ROM opened, or after it
      closed), every hook the plugin acts on aborts the host instead of doing
      nothing. */
  lemma NoSessionAborts(L: Lua, control: int, command: Option<seq<byte>>, keys: u32, slot: SController, outcome: CallOutcome)
    requires L.entry.None?
    requires Serves(control, command) && Framed(command.value)
    ensures ControllerCommand(control, command, L, outcome) == Aborted
    ensures ReadDefined(L.entry, control, command, outcome) ==> ReadController(control, command, L, outcome) == Aborted
    ensures GetKeys(0, keys, slot, L, outcome) == Aborted
  {
  }
}

=== FILE: lifecycle.dfy ===
/** The plugin as the host drives it: the `l_PluginInit` flag guarding
    `PluginStartup`/`PluginShutdown`, the Lua state those create and close,
    and every other entry point run against that state. An entry point that
    gets past its own guard while there is no live Lua state dereferences a
    NULL or closed `lua_State` and takes the host down. */
module Lifecycle {
  import opened Base
  import opened LuaStack
  import opened Hooks
  import opened Session

  /** The `m64p_error` codes the lifecycle functions return. */
  datatype M64Error = Success | NotInit | AlreadyInit

  /** The plugin's static state: the init flag, the Lua state `L` (absent when
      never created or already closed), the controller slot, and whether the
      global `lua_input_ref` holds `LUA_REFNIL` (the last script that ran
      returned nil). That global outlives the Lua state it refers into. */
  datatype Plugin = Plugin(initialised: bool, lua: Option<Lua>, slot: SController, refNil: bool)

  /** The plugin as the library is loaded: all statics zero, so the reference
      is 0 and not `LUA_REFNIL`. */
  const LOADED: Plugin := Plugin(false, None, ZEROED, false)

  /** The init flag is set exactly when a live Lua state exists. */
  predicate Valid(p: Plugin) {
    p.initialised <==> p.lua.Some?
  }

  /** `PluginStartup`: refuses a second start; otherwise opens a fresh Lua
      state and sets the flag. */
  function Startup(p: Plugin): (r: (M64Error, Plugin))
    ensures p.initialised ==> r == (AlreadyInit, p)
    ensures !p.initialised ==> r.0 == Success && r.1 == p.(initialised := true, lua := Some(FRESH))
    ensures r.1.initialised && r.1.slot == p.slot
  {
    if p.initialised then (AlreadyInit, p)
    else (Success, p.(initialised := true, lua := Some(FRESH)))
  }

  /** `PluginShutdown`: refuses when not started; otherwise closes the Lua
      state and clears the flag. */
  function Shutdown(p: Plugin): (r: (M64Error, Plugin))
    ensures !p.initialised ==> r == (NotInit, p)
    ensures p.initialised ==> r.0 == Success && r.1 == p.(initialised := false, lua := None)
    ensures !r.1.initialised && r.1.slot == p.slot
  {
    if !p.initialised then (NotInit, p)
    else (Success, p.(initialised := false, lua := None))
  }

  /** The plugin as loaded is a valid, stopped, clean starting point for
      `Drive`. */
  lemma LoadedIsClean()
    ensures Clean(LOADED) && !LOADED.initialised && LOADED.slot == ZEROED
    ensures Startup(LOADED) == (Success, Plugin(true, Some(FRESH), ZEROED, false))
  {
  }

  /** Starting and then shutting down a stopped plugin brings it back to
      exactly where it was. */
  lemma StartupThenShutdown(p: Plugin)
    requires Valid(p) && !p.initialised
    ensures Startup(p).0 == Success
    ensures Shutdown(Startup(p).1) == (Success, p)
  {
  }

  /** Shutting down and restarting a running plugin discards its Lua state:
      the stack is empty and no script table is referenced any more. */
  lemma ShutdownThenStartup(p: Plugin)
    requires Valid(p) && p.initialised
    ensures Shutdown(p).0 == Success
    ensures Startup(Shutdown(p).1) == (Success, p.(lua := Some(FRESH)))
  {
  }

  /** Each misuse is reported and changes nothing. */
  lemma MisuseIsHarmless(p: Plugin)
    ensures Startup(Startup(p).1) == (AlreadyInit, Startup(p).1)
    ensures Shutdown(Shutdown(p).1) == (NotInit, Shutdown(p).1)
  {
  }

  /** The host's entry points, with what the outside world did during each. */
  datatype Event =
    | Start
    | Stop
    | Initiate(info: ControlInfo, host: HostControl)
    | Open(load: LoadOutcome, run: CallOutcome)
    | Close
    | Host(call: Call)

  /** What an event demands: a per-call entry point against a live Lua state
      must be defined against that state's entry table. */
  predicate EventDefined(p: Plugin, e: Event) {
    e.Host? && p.lua.Some? ==> Defined(p.lua.value.entry, e.call)
  }

  /** One event, with the corrected `RomOpen` and `ControllerCommand`. The host
      memory `InitiateControllers` writes and the status words are the host's;
      the plugin keeps its own state. */
  function Handle(p: Plugin, e: Event): (r: Step<Plugin>)
    requires EventDefined(p, e)
    ensures e.Start? ==> r == Done(Startup(p).1)
    ensures e.Stop? ==> r == Done(Shutdown(p).1)
    ensures e.Initiate? ==> r == Done(p.(slot := InitiateControllers(e.info, e.host).0))
    ensures e.Open? ==> (r == Aborted <==> p.lua.None?)
    ensures e.Open? && r.Done? ==>
      (r.value.refNil <==> if e.load.Compiled? && e.run.Returned? then TopAfter(e.run) == Nil else p.refNil)
    ensures e.Close? ==> (r == Aborted <==> p.lua.None? && !p.refNil)
    ensures e.Close? && p.refNil ==> r == Done(p)
    ensures r.Done? && !e.Open? ==> r.value.refNil == p.refNil
    ensures e.Host? && !Acts(e.call) ==> r == Done(p)
    ensures e.Host? && Acts(e.call) && p.lua.None? ==> r == Aborted
    ensures e.Host? && Acts(e.call) && p.lua.Some? ==> (r == Aborted <==> !Indexable(p.lua.value.entry))
    ensures r.Done? ==> r.value.initialised == (if e.Start? then true else if e.Stop? then false else p.initialised)
    ensures r.Done? && !e.Start? && !e.Stop? && p.lua.Some? ==> r.value.lua.Some? && r.value.lua.value.stack == p.lua.value.stack
  {
    match e
    case Start => Done(Startup(p).1)
    case Stop => Done(Shutdown(p).1)
    case Initiate(info, host) => Done(p.(slot := InitiateControllers(info, host).0))
    case Open(load, run) =>
      if p.lua.None? then Aborted
      else
        var (status, L1) := RomOpenBalanced(p.lua.value, load, run);
        Done(p.(lua := Some(L1), refNil := if status == 1 then L1.entry.None? else p.refNil))
    case Close =>
      if p.refNil then Done(p)
      else if p.lua.None? then Aborted
      else Done(p.(lua := Some(RomClosed(p.lua.value))))
    case Host(call) =>
      if !Acts(call) then Done(p)
      else if p.lua.None? then Aborted
      else
        match Perform(p.lua.value, p.slot, call)
        case Aborted => Aborted
        case Done((L1, slot1)) => Done(p.(lua := Some(L1), slot := slot1))
  }

  /** The events can be handled in order: each is defined in the state the
      previous ones leave. */
  predicate Runnable(p: Plugin, events: seq<Event>)
    decreases |events|
  {
    |events| == 0 ||
    (EventDefined(p, events[0]) &&
     match Handle(p, events[0])
     case Aborted => true
     case Done(p1) => Runnable(p1, events[1..]))
  }

  /** The plugin has no Lua state, or one whose stack is empty. */
  predicate Clean(p: Plugin) {
    Valid(p) && (p.lua.Some? ==> p.lua.value.stack == [])
  }

  /** Handles the events in order. Starting clean, a run that does not abort
      ends clean: whatever the hooks do, nothing is ever left on the stack. */
  function Drive(p: Plugin, events: seq<Event>): (r: Step<Plugin>)
    requires Runnable(p, events)
    ensures Clean(p) && r.Done? ==> Clean(r.value)
    decreases |events|
  {
    if |events| == 0 then Done(p)
    else
      match Handle(p, events[0])
      case Aborted => Aborted
      case Done(p1) => Drive(p1, events[1..])
  }
}

=== FILE: lua_convert.dfy ===
/** The two conversions the plugin applies to the value a hook leaves on top
    of the stack: `lua_tostring`, whose bytes `ReadController` copies into the
    reply region, and `lua_tointeger`, which `GetKeys` stores as the button
    word. Numbers are written and read in plain decimal. */
module LuaConvert {
  import opened Base
  import opened LuaStack

  const MINUS: byte := 0x2D
  const ZERO: byte := 0x30

  predicate IsDigit(b: byte) {
    ZERO <= b <= ZERO + 9
  }

  /** The ASCII digit for `d`. */
  function DigitByte(d: nat): (b: byte)
    requires d < 10
    ensures IsDigit(b)
    ensures (b - ZERO) as nat == d
  {
    ZERO + d as byte
  }

  /** The decimal digits of `n`, most significant first, without leading zeros. */
  function Digits(n: nat): (s: seq<byte>)
    ensures |s| > 0
    ensures forall i | 0 <= i < |s| :: IsDigit(s[i])
    ensures n >= 10 ==> s[0] != ZERO
  {
    if n < 10 then [DigitByte(n)] else Digits(n / 10) + [DigitByte(n % 10)]
  }

  /** `lua_tostring` of an integer: an optional minus sign and its digits. */
  function DecimalString(n: int): (s: seq<byte>)
    ensures |s| > 0
    ensures (s[0] == MINUS) <==> n < 0
  {
    if n < 0 then [MINUS] + Digits(-n) else Digits(n)
  }

  /** The number a run of ASCII digits spells, read left to right. */
  function DigitsValue(s: seq<byte>): (n: nat)
    requires forall i | 0 <= i < |s| :: IsDigit(s[i])
    decreases |s|
  {
    if |s| == 0 then 0 else 10 * DigitsValue(s[..|s| - 1]) + (s[|s| - 1] - ZERO) as nat
  }

  /** The integer a string spells: an optional minus sign followed by at least
      one digit and nothing else. */
  function ParseDecimal(s: seq<byte>): (r: Option<int>)
    ensures r.Some? ==> |s| > 0
  {
    var neg := |s| > 0 && s[0] == MINUS;
    var digits := if neg then s[1..] else s;
    if |digits| > 0 && forall i | 0 <= i < |digits| :: IsDigit(digits[i]) then
      var value: int := DigitsValue(digits);
      Some(if neg then -value else value)
    else None
  }

  lemma {:induction false} DigitsRoundTrip(n: nat)
    ensures DigitsValue(Digits(n)) == n
    decreases n
  {
    if n >= 10 {
      DigitsRoundTrip(n / 10);
      var s := Digits(n);
      assert s[..|s| - 1] == Digits(n / 10);
      assert (s[|s| - 1] - ZERO) as nat == n % 10;
      assert DigitsValue(s) == 10 * (n / 10) + n % 10;
    }
  }

  /** A run of digits parses to its value, and with a minus sign in front to
      the negated value. */
  lemma ParseDigits(digits: seq<byte>)
    requires |digits| > 0 && forall i | 0 <= i < |digits| :: IsDigit(digits[i])
    ensures ParseDecimal(digits) == Some(DigitsValue(digits) as int)
    ensures ParseDecimal([MINUS] + digits) == Some(-(DigitsValue(digits) as int))
  {
    assert !IsDigit(MINUS);
    assert digits[0] != MINUS by {
      assert IsDigit(digits[0]);
    }
    var s := [MINUS] + digits;
    assert s[0] == MINUS && s[1..] == digits;
  }

  /** Reading back the decimal form of an integer gives that integer. */
  lemma DecimalRoundTrip(n: int)
    ensures ParseDecimal(DecimalString(n)) == Some(n)
  {
    if n < 0 {
      var m: nat := -n;
      var d := Digits(m);
      assert DecimalString(n) == [MINUS] + d;
      DigitsRoundTrip(m);
      ParseDigits(d);
    } else {
      var d := Digits(n);
      assert DecimalString(n) == d;
      DigitsRoundTrip(n);
      ParseDigits(d);
    }
  }

  /** `lua_tostring`: strings as they are, integers in decimal, and no string
      (a NULL pointer) for anything else. */
  function ToLString(v: Value): (r: Option<seq<byte>>)
    ensures r.Some? <==> v.Str? || v.Integer?
    ensures v.Str? ==> r == Some(v.bytes)
    ensures v.Integer? ==> r.Some? && ParseDecimal(r.value) == Some(v.n)
  {
    match v
    case Str(bytes) => Some(bytes)
    case Integer(n) => DecimalRoundTrip(n); Some(DecimalString(n))
    case _ => None
  }

  /** `lua_tointeger`: integers as they are, numeric strings by their value,
      and 0 for anything that is not convertible. */
  function ToInteger(v: Value): (r: int)
    ensures v.Integer? ==> r == v.n
    ensures v.Str? && ParseDecimal(v.bytes).Some? ==> r == ParseDecimal(v.bytes).value
    ensures !v.Integer? && !(v.Str? && ParseDecimal(v.bytes).Some?) ==> r == 0
  {
    match v
    case Integer(n) => n
    case Str(bytes) => ParseDecimal(bytes).GetOr(0)
    case _ => 0
  }

  /** Converting an integer to a string and back with these two conversions
      gives the integer again. */
  lemma StringThenInteger(n: int)
    ensures ToLString(Integer(n)).Some?
    ensures ToInteger(Str(ToLString(Integer(n)).value)) == n
  {
  }
}

=== FILE: lua_stack.dfy ===
/** The embedded Lua state as the plugin sees it through the C API: an
    evaluation stack of values, the one registry slot the plugin keeps a
    reference in (`lua_input_ref`), and a trace of the functions it has called.
    The Lua runtime itself is abstract: `lua_pcall` is given only its published
    contract, and what the called function does is a parameter. */
module LuaStack {
  import opened Base

  /** The Lua values the plugin handles. A table carries its string-keyed
      fields; a function is known only by identity. */
  datatype Value =
    | Nil
    | Integer(n: int)
    | Str(bytes: seq<byte>)
    | Table(fields: map<string, Value>)
    | Function(id: nat)

  /** What a protected call did: returned some values, or raised an error object. */
  datatype CallOutcome = Returned(results: seq<Value>) | Raised(error: Value)

  /** One call the plugin made: the function called and the arguments it was given. */
  datatype Invocation = Invocation(callee: Value, args: seq<Value>)

  /** `entry` is what `lua_rawgeti(L, LUA_REGISTRYINDEX, lua_input_ref)` yields:
      the script's table while a reference to it is held, and otherwise a value
      that cannot be indexed (nil, or the registry's free-list link once the
      reference is released), modelled as `None`. */
  datatype Lua = Lua(stack: seq<Value>, entry: Option<Value>, trace: seq<Invocation>) {

    function Depth(): nat {
      |stack|
    }
  }

  /** A state just created by `luaL_newstate`: empty stack, nothing referenced. */
  const FRESH: Lua := Lua([], None, [])

  /** Pushing one value (`lua_pushinteger`, `lua_pushlstring`, ...). */
  function Push(L: Lua, v: Value): (r: Lua)
    ensures r.Depth() == L.Depth() + 1 && r.stack[..L.Depth()] == L.stack && r.stack[L.Depth()] == v
    ensures r.entry == L.entry && r.trace == L.trace
  {
    L.(stack := L.stack + [v])
  }

  /** `lua_pop(L, n)`: the API requires at least `n` values on the stack. */
  function Pop(L: Lua, n: nat): (r: Lua)
    requires n <= L.Depth()
    ensures r.Depth() == L.Depth() - n && r.stack == L.stack[..L.Depth() - n]
    ensures r.entry == L.entry && r.trace == L.trace
  {
    L.(stack := L.stack[..L.Depth() - n])
  }

  /** `lua_rawgeti(L, LUA_REGISTRYINDEX, lua_input_ref)`. */
  function PushEntry(L: Lua): (r: Lua)
    ensures r.Depth() == L.Depth() + 1
    ensures r.stack[..L.Depth()] == L.stack && r.stack[L.Depth()] == L.entry.GetOr(Nil)
    ensures r.entry == L.entry && r.trace == L.trace
  {
    Push(L, L.entry.GetOr(Nil))
  }

  /** What indexing `v` with `name` yields, or `None` when indexing `v` raises
      an error. Strings index into the string library, whose fields are not
      modelled (none of them is named after a hook); nil, numbers and
      functions cannot be indexed. */
  function Index(v: Value, name: string): (r: Option<Value>)
    ensures r.Some? <==> v.Table? || v.Str?
    ensures v.Table? && name in v.fields ==> r == Some(v.fields[name])
    ensures v.Table? && name !in v.fields ==> r == Some(Nil)
    ensures v.Str? ==> r == Some(Nil)
  {
    match v
    case Table(fields) => Some(if name in fields then fields[name] else Nil)
    case Str(_) => Some(Nil)
    case _ => None
  }

  /** `lua_getfield(L, -1, name)`. It runs outside any protected call, so an
      error while indexing is unprotected and reaches the panic handler. */
  function GetField(L: Lua, name: string): (r: Step<Lua>)
    requires L.Depth() > 0
    ensures r.Done? <==> Index(L.stack[L.Depth() - 1], name).Some?
    ensures r.Done? ==> r.value == Push(L, Index(L.stack[L.Depth() - 1], name).value)
  {
    match Index(L.stack[L.Depth() - 1], name)
    case Some(v) => Done(Push(L, v))
    case None => Aborted
  }

  /** Lua's adjustment of a result list to exactly `n` values: extra results
      are dropped and missing ones are nil. */
  function Adjust(results: seq<Value>, n: nat): (r: seq<Value>)
    ensures |r| == n
    ensures forall i | 0 <= i < n :: r[i] == if i < |results| then results[i] else Nil
  {
    if n == 0 then []
    else if |results| == 0 then Adjust([], n - 1) + [Nil]
    else [results[0]] + Adjust(results[1..], n - 1)
  }

  /** Only a function can be called: calling anything else raises. */
  predicate Admissible(callee: Value, outcome: CallOutcome) {
    callee.Function? || outcome.Raised?
  }

  /** `lua_pcall(L, nargs, nresults, 0)` under the contract of the Lua reference
      manual: it pops the function and its `nargs` arguments; on success it
      pushes exactly `nresults` values, on error the one error object. Nothing
      below the function is touched. */
  function PCall(L: Lua, nargs: nat, nresults: nat, outcome: CallOutcome): (r: Lua)
    requires nargs + 1 <= L.Depth()
    requires Admissible(L.stack[L.Depth() - nargs - 1], outcome)
    ensures L.Depth() - nargs - 1 <= r.Depth()
    ensures r.stack[..L.Depth() - nargs - 1] == L.stack[..L.Depth() - nargs - 1]
    ensures outcome.Returned? ==> r.Depth() == L.Depth() - nargs - 1 + nresults
    ensures outcome.Returned? ==> r.stack[L.Depth() - nargs - 1..] == Adjust(outcome.results, nresults)
    ensures outcome.Raised? ==> r.Depth() == L.Depth() - nargs && r.stack[r.Depth() - 1] == outcome.error
    ensures r.entry == L.entry
    ensures r.trace == L.trace + [Invocation(L.stack[L.Depth() - nargs - 1], L.stack[L.Depth() - nargs..])]
  {
    var base := L.Depth() - nargs - 1;
    var call := Invocation(L.stack[base], L.stack[base + 1..]);
    var pushed := match outcome
      case Returned(results) => Adjust(results, nresults)
      case Raised(error) => [error];
    Lua(L.stack[..base] + pushed, L.entry, L.trace + [call])
  }

  /** The value left on top by a call that asked for one result. */
  function TopAfter(outcome: CallOutcome): Value {
    match outcome
    case Returned(results) => if |results| > 0 then results[0] else Nil
    case Raised(error) => error
  }

  /** A one-result call leaves `TopAfter(outcome)` on top, whichever way it ends. */
  lemma PCallOneResultTop(L: Lua, nargs: nat, outcome: CallOutcome)
    requires nargs + 1 <= L.Depth()
    requires Admissible(L.stack[L.Depth() - nargs - 1], outcome)
    ensures PCall(L, nargs, 1, outcome).Depth() == L.Depth() - nargs
    ensures PCall(L, nargs, 1, outcome).stack[L.Depth() - nargs - 1] == TopAfter(outcome)
  {
    var r := PCall(L, nargs, 1, outcome);
    if outcome.Returned? {
      assert r.stack[L.Depth() - nargs - 1..][0] == Adjust(outcome.results, 1)[0];
    }
  }
}

=== FILE: pif_command.dfy ===
/** The PIF command buffer the host hands to `ControllerCommand` and
    `ReadController`: a two-byte header holding the transmit and receive
    lengths in its low six bits, the transmit payload, then the receive region
    the plugin overwrites in place with the reply. */
module PifCommand {
  import opened Base

  /** Only bits 0-5 of a header byte carry a length. */
  const LENGTH_MASK: byte := 0x3F

  /** Bytes 0 and 1 are the header; the payload starts at offset 2. */
  const HEADER_SIZE: nat := 2

  /** The length carried by a header byte, whatever its two high bits are. */
  function LengthOf(b: byte): (n: nat)
    ensures n < 64
    ensures n == b as int % 64
  {
    (b & LENGTH_MASK) as nat
  }

  datatype Header = Header(txLen: nat, rxLen: nat)

  function DecodeHeader(buf: seq<byte>): (h: Header)
    requires |buf| >= HEADER_SIZE
    ensures h.txLen < 64 && h.rxLen < 64
    ensures h.txLen == buf[0] as int % 64 && h.rxLen == buf[1] as int % 64
  {
    Header(LengthOf(buf[0]), LengthOf(buf[1]))
  }

  /** A half-open range `[start, start + len)` of buffer offsets. */
  datatype Region = Region(start: nat, len: nat) {

    function End(): nat {
      start + len
    }

    predicate Contains(i: int) {
      start <= i < start + len
    }
  }

  function TxRegion(h: Header): Region {
    Region(HEADER_SIZE, h.txLen)
  }

  function RxRegion(h: Header): Region {
    Region(HEADER_SIZE + h.txLen, h.rxLen)
  }

  /** The buffer holds the header and both regions the header announces; the
      code reads and writes them without checking, so this is what it demands
      of the host. */
  predicate Framed(buf: seq<byte>) {
    |buf| >= HEADER_SIZE && RxRegion(DecodeHeader(buf)).End() <= |buf|
  }

  /** The request payload `Command[2 .. 2+tx_len)`. */
  function TxData(buf: seq<byte>): (tx: seq<byte>)
    requires Framed(buf)
    ensures |tx| == DecodeHeader(buf).txLen
  {
    var r := TxRegion(DecodeHeader(buf));
    buf[r.start..r.End()]
  }

  /** The reply region `Command[2+tx_len .. 2+tx_len+rx_len)`. */
  function RxData(buf: seq<byte>): (rx: seq<byte>)
    requires Framed(buf)
    ensures |rx| == DecodeHeader(buf).rxLen
  {
    var r := RxRegion(DecodeHeader(buf));
    buf[r.start..r.End()]
  }

  /** The transmit region starts right after the header, the receive region
      right after the transmit region, the two never overlap, and together
      they cover exactly the offsets between the header and the end of the
      frame. */
  lemma RegionsTileFrame(h: Header)
    ensures TxRegion(h).start == HEADER_SIZE
    ensures TxRegion(h).End() == RxRegion(h).start
    ensures forall i :: !(TxRegion(h).Contains(i) && RxRegion(h).Contains(i))
    ensures forall i :: TxRegion(h).Contains(i) || RxRegion(h).Contains(i)
                    <==> HEADER_SIZE <= i < HEADER_SIZE + h.txLen + h.rxLen
  {
  }

  /** Decoding splits the framed prefix of a buffer into header, transmit
      payload and receive region with nothing lost or repeated. */
  lemma FrameSplits(buf: seq<byte>)
    requires Framed(buf)
    ensures buf[..RxRegion(DecodeHeader(buf)).End()] == buf[..HEADER_SIZE] + TxData(buf) + RxData(buf)
  {
    var h := DecodeHeader(buf);
    var e := RxRegion(h).End();
    assert buf[..e] == buf[..HEADER_SIZE] + buf[HEADER_SIZE..HEADER_SIZE + h.txLen] + buf[HEADER_SIZE + h.txLen..e];
  }

  /** The bytes `memcpy(rx_data, data, rx_len)` leaves in the buffer: the first
      `rx_len` bytes of `reply` in the receive region, every other byte as it was. */
  function WriteRx(buf: seq<byte>, reply: seq<byte>): (out: seq<byte>)
    requires Framed(buf)
    requires |reply| >= DecodeHeader(buf).rxLen
    ensures |out| == |buf|
    ensures forall i | 0 <= i < |buf| ::
      out[i] == (if RxRegion(DecodeHeader(buf)).start <= i < RxRegion(DecodeHeader(buf)).End()
                 then reply[i - RxRegion(DecodeHeader(buf)).start] else buf[i])
  {
    var r := RxRegion(DecodeHeader(buf));
    buf[..r.start] + reply[..r.len] + buf[r.End()..]
  }

  /** The same write-back done the way `memcpy` does it, one byte at a time. */
  method CopyReply(buf: seq<byte>, reply: seq<byte>) returns (out: seq<byte>)
    requires Framed(buf)
    requires |reply| >= DecodeHeader(buf).rxLen
    ensures out == WriteRx(buf, reply)
  {
    var r := RxRegion(DecodeHeader(buf));
    out := buf;
    var k := 0;
    while k < r.len
      invariant 0 <= k <= r.len
      invariant |out| == |buf|
      invariant forall i | 0 <= i < |buf| ::
        out[i] == (if r.start <= i < r.start + k then reply[i - r.start] else buf[i])
    {
      out := out[r.start + k := reply[k]];
      k := k + 1;
    }
  }

  /** The write-back leaves the bytes before the receive region and after it
      as they were and puts the reply prefix in between. */
  lemma WriteRxPieces(buf: seq<byte>, reply: seq<byte>)
    requires Framed(buf)
    requires |reply| >= DecodeHeader(buf).rxLen
    ensures WriteRx(buf, reply)[..RxRegion(DecodeHeader(buf)).start] == buf[..RxRegion(DecodeHeader(buf)).start]
    ensures WriteRx(buf, reply)[RxRegion(DecodeHeader(buf)).start..RxRegion(DecodeHeader(buf)).End()]
         == reply[..DecodeHeader(buf).rxLen]
    ensures WriteRx(buf, reply)[RxRegion(DecodeHeader(buf)).End()..] == buf[RxRegion(DecodeHeader(buf)).End()..]
  {
    var r := RxRegion(DecodeHeader(buf));
    var front, mid, back := buf[..r.start], reply[..r.len], buf[r.End()..];
    assert WriteRx(buf, reply) == front + mid + back;
  }

  /** After the write-back the header, and so both regions, decode as before,
      the request payload is untouched and the receive region holds the reply. */
  lemma WriteRxKeepsFrame(buf: seq<byte>, reply: seq<byte>)
    requires Framed(buf)
    requires |reply| >= DecodeHeader(buf).rxLen
    ensures Framed(WriteRx(buf, reply))
    ensures DecodeHeader(WriteRx(buf, reply)) == DecodeHeader(buf)
    ensures TxData(WriteRx(buf, reply)) == TxData(buf)
    ensures RxData(WriteRx(buf, reply)) == reply[..DecodeHeader(buf).rxLen]
    ensures WriteRx(buf, reply)[RxRegion(DecodeHeader(buf)).End()..] == buf[RxRegion(DecodeHeader(buf)).End()..]
  {
    var h := DecodeHeader(buf);
    var r := RxRegion(h);
    var out := WriteRx(buf, reply);
    WriteRxPieces(buf, reply);
    var front := out[..r.start];
    assert front == buf[..r.start];
    assert DecodeHeader(out) == h by {
      assert out[0] == front[0] == buf[0] && out[1] == front[1] == buf[1];
    }
    assert TxData(out) == front[HEADER_SIZE..] == TxData(buf);
  }

  /** Writing back what the receive region already holds changes nothing. */
  lemma WriteRxOwnData(buf: seq<byte>)
    requires Framed(buf)
    ensures WriteRx(buf, RxData(buf)) == buf
  {
    var out := WriteRx(buf, RxData(buf));
    var r := RxRegion(DecodeHeader(buf));
    forall i | 0 <= i < |buf| ensures out[i] == buf[i] {
      if r.start <= i < r.End() {
        assert RxData(buf)[i - r.start] == buf[i];
      }
    }
  }

  /** Of two write-backs into the same buffer only the second is visible. */
  lemma WriteRxLastWins(buf: seq<byte>, first: seq<byte>, second: seq<byte>)
    requires Framed(buf)
    requires |first| >= DecodeHeader(buf).rxLen && |second| >= DecodeHeader(buf).rxLen
    ensures Framed(WriteRx(buf, first))
    ensures |second| >= DecodeHeader(WriteRx(buf, first)).rxLen
    ensures WriteRx(WriteRx(buf, first), second) == WriteRx(buf, second)
  {
    WriteRxKeepsFrame(buf, first);
    var mid := WriteRx(buf, first);
    var a, b := WriteRx(mid, second), WriteRx(buf, second);
    assert |a| == |b|;
    forall i | 0 <= i < |a| ensures a[i] == b[i] {
    }
  }
}

=== FILE: session.dfy ===
/** A ROM session seen from the Lua stack: the host calls the per-call entry
    points (`ControllerCommand`, `ReadController`, `GetKeys`) any number of
    times in any order. With the corrected `ControllerCommand` the stack depth
    never drifts; with the one as written it grows by one per failed command. */
module Session {
  import opened Base
  import opened PifCommand
  import opened LuaStack
  import opened Hooks

  /** One host call of a per-call entry point, with what the hook did. The
      buffer `ReadController` writes back and the word `GetKeys` copies out
      belong to the host; the session keeps only the Lua state and the slot. */
  datatype Call =
    | Command(control: int, command: Option<seq<byte>>, outcome: CallOutcome)
    | Read(control: int, command: Option<seq<byte>>, outcome: CallOutcome)
    | Keys(control: int, keys: u32, outcome: CallOutcome)

  /** The entry point's guard passes, so it touches Lua. */
  predicate Acts(c: Call) {
    match c
    case Command(control, command, _) => Serves(control, command)
    case Read(control, command, _) => Serves(control, command)
    case Keys(control, _, _) => control == 0
  }

  /** What the entry point demands of the host and of Lua for this call. */
  predicate Defined(entry: Option<Value>, c: Call) {
    match c
    case Command(control, command, outcome) => CommandDefined(entry, CONTROLLER_COMMAND, control, command, outcome)
    case Read(control, command, outcome) => ReadDefined(entry, control, command, outcome)
    case Keys(control, _, outcome) => control == 0 ==> HookAdmissible(entry, GET_KEYS, outcome)
  }

  /** The entry table can be indexed, so no hook lookup aborts. */
  predicate Indexable(entry: Option<Value>) {
    entry.Some? && (entry.value.Table? || entry.value.Str?)
  }

  /** A call after which the code as written leaves a value behind. */
  predicate Leaks(c: Call) {
    c.Command? && Serves(c.control, c.command) && c.outcome.Raised?
  }

  function LeakCount(calls: seq<Call>): (n: nat)
    ensures n <= |calls|
  {
    if |calls| == 0 then 0 else (if Leaks(calls[0]) then 1 else 0) + LeakCount(calls[1..])
  }

  /** One call, with the corrected `ControllerCommand`. */
  function Perform(L: Lua, slot: SController, c: Call): (r: Step<(Lua, SController)>)
    requires Defined(L.entry, c)
    ensures !Acts(c) ==> r == Done((L, slot))
    ensures Acts(c) ==> (r == Aborted <==> !Indexable(L.entry))
    ensures r.Done? ==> r.value.0.stack == L.stack && r.value.0.entry == L.entry
  {
    match c
    case Command(control, command, outcome) =>
      (match ControllerCommandBalanced(control, command, L, outcome)
       case Aborted => Aborted
       case Done(L1) => Done((L1, slot)))
    case Read(control, command, outcome) =>
      (match ReadController(control, command, L, outcome)
       case Aborted => Aborted
       case Done((L1, _)) => Done((L1, slot)))
    case Keys(control, keys, outcome) =>
      match GetKeys(control, keys, slot, L, outcome)
      case Aborted => Aborted
      case Done((L1, slot1, _)) => Done((L1, slot1))
  }

  /** One call, with `ControllerCommand` as written. */
  function PerformAsWritten(L: Lua, slot: SController, c: Call): (r: Step<(Lua, SController)>)
    requires Defined(L.entry, c)
    ensures !Acts(c) ==> r == Done((L, slot))
    ensures Acts(c) ==> (r == Aborted <==> !Indexable(L.entry))
    ensures r.Done? ==> r.value.0.entry == L.entry
    ensures r.Done? && !Leaks(c) ==> r.value.0.stack == L.stack
    ensures r.Done? && Leaks(c) ==> r.value.0.stack == L.stack + [L.entry.GetOr(Nil)]
  {
    match c
    case Command(control, command, outcome) =>
      (match ControllerCommand(control, command, L, outcome)
       case Aborted => Aborted
       case Done(L1) => Done((L1, slot)))
    case _ => Perform(L, slot, c)
  }

  /** Every call of `calls` is defined against the session's entry table, which
      the per-call entry points never change. */
  predicate AllDefined(entry: Option<Value>, calls: seq<Call>) {
    forall i | 0 <= i < |calls| :: Defined(entry, calls[i])
  }

  /** Runs the calls in order with the corrected `ControllerCommand`: if none
      of them aborts, the stack ends exactly as it began. */
  function Run(L: Lua, slot: SController, calls: seq<Call>): (r: Step<(Lua, SController)>)
    requires AllDefined(L.entry, calls)
    ensures Indexable(L.entry) ==> r.Done?
    ensures r.Done? ==> r.value.0.stack == L.stack && r.value.0.entry == L.entry
    decreases |calls|
  {
    if |calls| == 0 then Done((L, slot))
    else
      match Perform(L, slot, calls[0])
      case Aborted => Aborted
      case Done((L1, slot1)) =>
        assert AllDefined(L1.entry, calls[1..]) by {
          forall i | 0 <= i < |calls| - 1 ensures Defined(L1.entry, calls[1..][i]) {
            assert calls[1..][i] == calls[i + 1];
          }
        }
        Run(L1, slot1, calls[1..])
  }

  /** Runs the calls in order with `ControllerCommand` as written: if none of
      them aborts, the original stack is still at the bottom and one copy of
      the entry table sits on it for every failed command. */
  function RunAsWritten(L: Lua, slot: SController, calls: seq<Call>): (r: Step<(Lua, SController)>)
    requires AllDefined(L.entry, calls)
    ensures Indexable(L.entry) ==> r.Done?
    ensures r.Done? ==>
      r.value.0.entry == L.entry &&
      r.value.0.Depth() == L.Depth() + LeakCount(calls) &&
      r.value.0.stack[..L.Depth()] == L.stack
    decreases |calls|
  {
    if |calls| == 0 then Done((L, slot))
    else
      match PerformAsWritten(L, slot, calls[0])
      case Aborted => Aborted
      case Done((L1, slot1)) =>
        assert AllDefined(L1.entry, calls[1..]) by {
          forall i | 0 <= i < |calls| - 1 ensures Defined(L1.entry, calls[1..][i]) {
            assert calls[1..][i] == calls[i + 1];
          }
        }
        var r := RunAsWritten(L1, slot1, calls[1..]);
        assert r.Done? ==> r.value.0.stack[..L.Depth()] == L.stack by {
          if r.Done? {
            assert r.value.0.stack[..L1.Depth()][..L.Depth()] == L1.stack[..L.Depth()];
          }
        }
        r
  }

  /** Before any ROM opened or after it closed, the first call that gets past
      its guard aborts the host. */
  lemma {:induction false} RunWithoutSessionAborts(L: Lua, slot: SController, calls: seq<Call>, k: nat)
    requires L.entry.None? && AllDefined(L.entry, calls)
    requires k < |calls| && Acts(calls[k])
    ensures Run(L, slot, calls) == Aborted
    decreases k
  {
    if Acts(calls[0]) {
      assert Perform(L, slot, calls[0]) == Aborted;
    } else {
      var tail := calls[1..];
      assert AllDefined(L.entry, tail) by {
        forall i | 0 <= i < |tail| ensures Defined(L.entry, tail[i]) {
          assert tail[i] == calls[i + 1];
        }
      }
      assert tail[k - 1] == calls[k];
      RunWithoutSessionAborts(L, slot, tail, k - 1);
    }
  }

  /** Every call of a run in which each call leaks counts once. */
  lemma {:induction false} AllLeak(calls: seq<Call>)
    requires forall i | 0 <= i < |calls| :: Leaks(calls[i])
    ensures LeakCount(calls) == |calls|
  {
    if |calls| > 0 {
      AllLeak(calls[1..]);
    }
  }

  /** A run of failing commands, as written, never aborts while a table is
      referenced and leaves one value per command on the stack: the stack
      grows without bound over a session. */
  lemma {:induction false} FailedCommandsAccumulate(L: Lua, slot: SController, calls: seq<Call>)
    requires Indexable(L.entry) && AllDefined(L.entry, calls)
    requires forall i | 0 <= i < |calls| :: Leaks(calls[i])
    ensures RunAsWritten(L, slot, calls).Done?
    ensures RunAsWritten(L, slot, calls).value.0.Depth() == L.Depth() + |calls|
  {
    AllLeak(calls);
  }
}
